=== FILE: README.md ===
# Gallery widget model

A functional model of `GalleryManager`, the image-gallery widget in
`assets/maugallery.js`. The DOM is abstracted away: a gallery is an
immutable record holding its merged configuration, one column cell per
gallery item (the item, its width in grid units, its visibility), the tag-bar
filter controls (key and active marker), where the bar sits, and the set of
items the intersection observer still watches. Every operation of the widget
is a pure function on that record:

- `Config` — the defaults and the `{ ...defaults, ...options }` merge.
- `Layout` — the wrap pass: `Math.ceil(12 / columns)` cell widths, one cell
  per item, and the tag collection into a JavaScript `Set` (distinct truthy
  tags in first-insertion order), both as reference functions and as the
  single loop the widget runs.
- `TagBar` — the control list: "all" (active) first, then one control per
  collected tag; the bar goes last for position "bottom" and first otherwise.
- `GalleryState` — the gallery record and its two invariants: the filter
  invariant (at most one active control, visibility follows the active key)
  and the observer invariant (only deferred items are watched).
- `Filter` — the transition of a tag-control click.
- `Interaction` — the delegated click handler: control click, item click
  (lightbox when enabled), anything else.
- `LazyLoad` — native lazy loading, and the intersection-observer fallback
  that assigns each deferred source on first intersection and unobserves it.
- `Manager` — construction in the widget's order (merge, wrap, tag bar,
  listener, loader) and arbitrary runs of clicks and intersection entries.
- `Scenario` — worked examples of the whole widget.

The lightbox itself is an external Bootstrap modal; a click that opens it is
modelled as the effect `OpenLightbox(lightboxId, source)`: the code calls
the modal's `toggle()`, and toggling a closed modal is modelled as opening
it. Whether the runtime supports native lazy loading is the parameter
`nativeLazy`, and intersection records arrive as an input sequence.

Behaviour of the code worth noting:
the tag-bar position is any string, compared with `"bottom"` (anything else
puts the bar first, not only "top"); the collected tags have a definite
order, the insertion order of the `Set`; with tags hidden there are no
controls at all, so no control is active (the model's active key then
defaults to "all", under which every cell is visible).

## Model

| member | source | states |
|---|---|---|
| Base.HasTag | ninacarducci.github.io-main/assets/maugallery.js:45 | a tag passes the collection test iff it is present and non-empty: a missing tag and the empty tag are both rejected |
| Config.Merge | ninacarducci.github.io-main/assets/maugallery.js:6-16 | every option the caller supplies wins; every key not supplied keeps the default |
| Config.MergeTwice | ninacarducci.github.io-main/assets/maugallery.js:16 | spreading two option objects in turn equals spreading one combined object in which the later keys win |
| Config.MergeNoOptions | ninacarducci.github.io-main/assets/maugallery.js:4-13 | with no options the configuration is the defaults: 3 columns, lightbox on, tags shown, position "bottom" |
| Config.MergeIdempotent | ninacarducci.github.io-main/assets/maugallery.js:16 | merging the same options a second time changes nothing |
| Config.MergeColumnsOnly | ninacarducci.github.io-main/assets/maugallery.js:6-16 | supplying only a column count changes only the column count |
| Layout.ColumnWidth | ninacarducci.github.io-main/assets/maugallery.js:34-36 | the width is the ceiling of 12 / columns: between 1 and 12, the least w with w * columns >= 12 |
| Layout.ColumnWidthExamples | ninacarducci.github.io-main/assets/maugallery.js:7-36 | 3 columns (the default) give col-4, 2 give col-6, 1 gives col-12 |
| Layout.ColumnWidthOneBeyondGrid | ninacarducci.github.io-main/assets/maugallery.js:34-36 | 12 columns or more give col-1 |
| Layout.Wrap | ninacarducci.github.io-main/assets/maugallery.js:30-40 | exactly one cell per item, in item order, each of the configured width and visible |
| Layout.ContentsOfWrap | ninacarducci.github.io-main/assets/maugallery.js:30-40 | reading the items back out of the cells gives the original items: nothing dropped, duplicated or reordered |
| Layout.FirstIndex | ninacarducci.github.io-main/assets/maugallery.js:44-45 | the result is the position of the first item carrying the tag, or the item count if none does |
| Layout.FirstIndexAppend | ninacarducci.github.io-main/assets/maugallery.js:32-45 | walking one more item keeps every earlier first occurrence and puts a new tag's first occurrence at the new item |
| Layout.CollectTags | ninacarducci.github.io-main/assets/maugallery.js:43-46 | a tag is collected iff some item carries it and it is non-empty; collected tags are ordered by first occurrence among the items |
| Layout.TaggedAppend | ninacarducci.github.io-main/assets/maugallery.js:44-45 | walking one more item adds its tag to the tags present exactly when the tag is truthy |
| Layout.CollectStep | ninacarducci.github.io-main/assets/maugallery.js:44-45 | adding one item's tag to the set (only when truthy and new) keeps membership and first-occurrence order exact |
| Layout.CollectTagsDistinct | ninacarducci.github.io-main/assets/maugallery.js:45 | duplicate tags collapse: no tag is collected twice |
| Layout.TagsFor | ninacarducci.github.io-main/assets/maugallery.js:43-46 | with tags hidden nothing is collected; with tags shown exactly the non-empty tags present are |
| Layout.WrapImages | ninacarducci.github.io-main/assets/maugallery.js:30-48 | the single loop that wraps each item and adds its tag builds exactly the reference cells and the reference tag collection |
| TagBar.RenderTags | ninacarducci.github.io-main/assets/maugallery.js:50-67 | no bar when tags are hidden; otherwise the active "all" control followed by one inactive control per collected tag, in collection order |
| TagBar.RenderedBar | ninacarducci.github.io-main/assets/maugallery.js:56-67 | a rendered bar's keys are exactly "all" and the collected tags, and only the first control is active |
| TagBar.Position | ninacarducci.github.io-main/assets/maugallery.js:51-72 | no bar iff tags are hidden; the bar is last iff the position is "bottom", first for any other position |
| GalleryState.Shows | ninacarducci.github.io-main/assets/maugallery.js:110 | under the key "all" every item is shown; under any other key an item is shown iff its tag is present and equal to the key; an untagged item is shown only under "all" |
| GalleryState.EmptyTagAsymmetry | ninacarducci.github.io-main/assets/maugallery.js:45-110 | an item tagged with the empty string is never collected, so no control has the key "", although the display test alone would show it under that key |
| GalleryState.ActiveKeyOf | ninacarducci.github.io-main/assets/maugallery.js:100-104 | when at most one control is active, the active key is that control's key |
| Filter.ShowOnly | ninacarducci.github.io-main/assets/maugallery.js:107-111 | every cell keeps its item and width and is visible iff the key is "all" or equals the item's tag |
| Filter.FilterByTag | ninacarducci.github.io-main/assets/maugallery.js:97-111 | after a click on a control, that control is active and every other is not; each cell is visible iff the clicked key is "all" or equals its item's tag; nothing else changes |
| Filter.FilterConsistent | ninacarducci.github.io-main/assets/maugallery.js:100-111 | after a filter step exactly one control is active and the gallery satisfies the filter invariant |
| Filter.FilterLastWins | ninacarducci.github.io-main/assets/maugallery.js:100-111 | a second filter step erases every trace of the first: the state depends only on the last control clicked |
| Filter.FilterIdempotent | ninacarducci.github.io-main/assets/maugallery.js:100-111 | filtering twice on the same control equals filtering once |
| Filter.UntaggedOnlyUnderAll | ninacarducci.github.io-main/assets/maugallery.js:109-110 | an untagged item is visible after a filter step iff the key is "all" |
| Filter.KeyWithoutItemsHidesAll | ninacarducci.github.io-main/assets/maugallery.js:107-111 | a key other than "all" that no item carries hides every cell |
| Filter.AllKeyShowsAll | ninacarducci.github.io-main/assets/maugallery.js:109-110 | the key "all" shows every cell |
| Interaction.HandleClick | ninacarducci.github.io-main/assets/maugallery.js:82-95 | a control click filters and requests nothing else; the lightbox is requested iff an item is clicked and the lightbox is enabled, with that item's current source; other clicks change nothing |
| Interaction.ClickConsistent | ninacarducci.github.io-main/assets/maugallery.js:82-111 | every click keeps the filter invariant and at most one active control |
| LazyLoad.Assign | ninacarducci.github.io-main/assets/maugallery.js:129-138 | the item's source becomes its deferred source; tag, deferred source, width and visibility are kept |
| LazyLoad.LoadNative | ninacarducci.github.io-main/assets/maugallery.js:126-130 | on the native path every item with a deferred source gets it as source; every other item is untouched |
| LazyLoad.Deliver | ninacarducci.github.io-main/assets/maugallery.js:135-141 | an entry assigns a source iff it is intersecting and its item is still watched; that item is then unobserved; otherwise nothing changes |
| LazyLoad.DeliverAll | ninacarducci.github.io-main/assets/maugallery.js:133-152 | over any run of entries every watched item that receives an intersecting entry is assigned, no item is assigned twice, only watched items are assigned, exactly the assigned items stop being watched, and every other item is untouched |
| LazyLoad.FallbackMatchesNative | ninacarducci.github.io-main/assets/maugallery.js:126-152 | once every watched item has an intersecting entry in the run, the fallback path leaves the items exactly as the native path does and watches nothing |
| LazyLoad.AssignedStaysAssigned | ninacarducci.github.io-main/assets/maugallery.js:140 | a later entry for an already assigned item never assigns it again |
| Manager.Construct | ninacarducci.github.io-main/assets/maugallery.js:4-28 | construction merges the options, yields one visible cell of the configured width per item, renders the bar from the collected tags, and either assigns every deferred source (native) or watches exactly the deferred items |
| Manager.ConstructInvariants | ninacarducci.github.io-main/assets/maugallery.js:20-28 | a freshly built gallery satisfies the filter invariant ("all" active, every cell visible) and the observer invariant |
| Manager.ConstructControls | ninacarducci.github.io-main/assets/maugallery.js:43-67 | with tags shown the control keys are exactly "all" plus the distinct non-empty tags; "all" is first and the only active one; the tag controls follow first-occurrence order |
| Manager.ConstructWithoutTags | ninacarducci.github.io-main/assets/maugallery.js:43-51 | with tags hidden no control and no bar is rendered |
| Manager.Run | ninacarducci.github.io-main/assets/maugallery.js:75-152 | any run of clicks and entries keeps the cell and control counts and the configuration, loads every watched item that receives an intersecting entry, loads only watched items and never loads an item twice, and keeps every control's key; a loaded item ends with exactly its deferred source as source and every other item is unchanged |
| Manager.RunLastClick | ninacarducci.github.io-main/assets/maugallery.js:97-111 | a run that ends with a click on a control leaves that control as the only active one and every cell visible exactly when its key shows the cell's item |
| Manager.RunConsistent | ninacarducci.github.io-main/assets/maugallery.js:82-141 | every run of events keeps the filter invariant, so at most one control is ever active |
| Manager.LifetimeInvariants | ninacarducci.github.io-main/assets/maugallery.js:4-152 | from construction through any run of events, at most one control is active, visibility follows the active key, and the observer assigns each deferred source at most once, and only on the fallback path; every item ends as given, except that its source is its deferred source when the native path or a load assigned it |
| Scenario.LandscapesSetup | ninacarducci.github.io-main/assets/maugallery.js:30-72 | items tagged landscape, portrait and untagged in two columns get col-6 cells and the controls all (active), landscape, portrait at the bottom |
| Scenario.LandscapesClicks | ninacarducci.github.io-main/assets/maugallery.js:82-111 | clicking "landscape" shows only the landscape item; clicking "all" afterwards shows all three |
| Scenario.TagNamedAll | ninacarducci.github.io-main/assets/maugallery.js:57-66 | an item tagged "all" yields a second control keyed "all" that shows the same cells as the first |

## Left out

- DOM node creation and insertion (`createElement`, `insertBefore`, `appendChild`, `closest`): cells and controls are sequences, and the bar's place is the `Placement` value.
- `innerHTML` building and CSS class strings other than the active marker and the column width. Tag text is written into the markup unescaped (line 65): a tag containing `"` can close the attribute and add further `.nav-link` elements, some possibly marked active, `&` character references are decoded when the markup is parsed, and since the tag is also written as the element's text, a tag containing `<` injects elements of its own (a child `.nav-link` whose click filters with an undefined key and so shows exactly the untagged items, or a second `active-tag` marker). The model assumes tags free of `"`, `&` and `<`, so Manager.ConstructControls (the exact key set) and TagBar.RenderedBar (only the first control active) hold in the source only for such tags.
- The lightbox body (`openLightbox`): a Bootstrap modal is a foreign library call, so a click yields the effect `OpenLightbox(lightboxId, source)`; a missing lightbox element, which makes the source throw, is not modelled.
- The `"loading" in HTMLImageElement.prototype` feature test, the `loading = "lazy"` attribute, the `loaded` class, and the observer's `rootMargin` and `threshold`: browser runtime primitives; the feature test is the parameter `nativeLazy` and intersection records are an input sequence.
- LazyLoad.Deliver: entries for items no longer watched are dropped, as the browser stops delivering them after `unobserve`; two intersecting entries for one item queued in the same callback batch, which the source would assign twice (with the same value), are not modelled.
- The document-wide queries of `filterByTag` (lines 101 and 107) and of `lazyLoadImages` (lines 127 and 150), which couple several galleries on one page: one gallery instance is modelled. The query at line 107 also reaches `.gallery-item` elements that were never wrapped (the bootstrap at lines 163-165 constructs only the first `.gallery`); for such an element `closest(".item-column")` is null, so line 109 throws and the filter loop stops there. With two instances on the fallback path, every deferred image has two observers and each assigns its source on first intersection, so LazyLoad.DeliverAll and Manager.LifetimeInvariants (each source assigned at most once) hold only for a page with a single gallery.
- Config.Merge: option keys other than the six known ones, and keys present with the value `undefined` (which the spread copies over the default), are not modelled.
- Layout.ColumnWidth: a column count that is zero, negative or not a whole number (where `Math.ceil` gives `Infinity` or other values) is excluded by the precondition `columns > 0`.
- `setupEventListeners`: attaching the listener has no modelled state; `Interaction.HandleClick` is the listener.
- The `DOMContentLoaded` bootstrap and the `window.GalleryManager` export.

=== FILE: base.dfy ===
/** Values shared by every part of the gallery model. */
module Base {

  /** A value that may be absent, as an element's `dataset` entry may be. */
  datatype Option<+T> = None | Some(value: T)

  /** An element with the `gallery-item` role: an image with an optional
      `data-gallery-tag`, an optional `data-src` (its deferred source) and
      the source it currently displays. */
  datatype Item = Item(tag: Option<string>, deferred: Option<string>, src: string)

  /** The truthiness test the gallery applies to a tag: present and non-empty. */
  predicate HasTag(it: Item)
    ensures it.tag.None? ==> !HasTag(it)
    ensures it.tag == Some("") ==> !HasTag(it)
    ensures it.tag.Some? && it.tag.value != "" ==> HasTag(it)
  {
    it.tag.Some? && it.tag.value != ""
  }
}

=== FILE: config.dfy ===
/** The gallery's configuration and the merge of caller options over the defaults. */
module Config {
  import opened Base

  /** The configuration a gallery reads after construction. */
  datatype Config = Config(
    columns: int,
    lightBox: bool,
    lightboxId: string,
    showTags: bool,
    tagsPosition: string,
    navigation: bool)

  /** The options object a caller passes; `None` means the key is absent. */
  datatype Options = Options(
    columns: Option<int>,
    lightBox: Option<bool>,
    lightboxId: Option<string>,
    showTags: Option<bool>,
    tagsPosition: Option<string>,
    navigation: Option<bool>)

  /** The empty options object, used when the caller passes none. */
  const NoOptions := Options(None, None, None, None, None, None)

  /** The built-in defaults. */
  const Defaults := Config(3, true, "galleryLightbox", true, "bottom", true)

  /** One key of an object spread: the later object's entry if it has one. */
  function Override<T>(later: Option<T>, earlier: T): T {
    match later
    case Some(v) => v
    case None => earlier
  }

  /** `{ ...defaults, ...options }`: every key the caller supplies wins and
      every other key keeps its default. */
  function Merge(defaults: Config, options: Options): (c: Config)
    ensures options.columns.Some? ==> c.columns == options.columns.value
    ensures options.columns.None? ==> c.columns == defaults.columns
    ensures options.lightBox.Some? ==> c.lightBox == options.lightBox.value
    ensures options.lightBox.None? ==> c.lightBox == defaults.lightBox
    ensures options.lightboxId.Some? ==> c.lightboxId == options.lightboxId.value
    ensures options.lightboxId.None? ==> c.lightboxId == defaults.lightboxId
    ensures options.showTags.Some? ==> c.showTags == options.showTags.value
    ensures options.showTags.None? ==> c.showTags == defaults.showTags
    ensures options.tagsPosition.Some? ==> c.tagsPosition == options.tagsPosition.value
    ensures options.tagsPosition.None? ==> c.tagsPosition == defaults.tagsPosition
    ensures options.navigation.Some? ==> c.navigation == options.navigation.value
    ensures options.navigation.None? ==> c.navigation == defaults.navigation
  {
    Config(
      Override(options.columns, defaults.columns),
      Override(options.lightBox, defaults.lightBox),
      Override(options.lightboxId, defaults.lightboxId),
      Override(options.showTags, defaults.showTags),
      Override(options.tagsPosition, defaults.tagsPosition),
      Override(options.navigation, defaults.navigation))
  }

  /** Spreading `b` after `a`, as a single options object. */
  function Combine(a: Options, b: Options): Options {
    Options(
      if b.columns.Some? then b.columns else a.columns,
      if b.lightBox.Some? then b.lightBox else a.lightBox,
      if b.lightboxId.Some? then b.lightboxId else a.lightboxId,
      if b.showTags.Some? then b.showTags else a.showTags,
      if b.tagsPosition.Some? then b.tagsPosition else a.tagsPosition,
      if b.navigation.Some? then b.navigation else a.navigation)
  }

  /** Spreading `a` and then `b` over a configuration equals spreading their
      combination once: later keys win. */
  lemma MergeTwice(d: Config, a: Options, b: Options)
    ensures Merge(Merge(d, a), b) == Merge(d, Combine(a, b))
  {
  }

  /** Without options the gallery runs on the defaults: 3 columns, lightbox
      on, tags shown at the bottom. */
  lemma MergeNoOptions()
    ensures Merge(Defaults, NoOptions) == Defaults
    ensures Merge(Defaults, NoOptions).columns == 3
    ensures Merge(Defaults, NoOptions).lightBox
    ensures Merge(Defaults, NoOptions).showTags
    ensures Merge(Defaults, NoOptions).tagsPosition == "bottom"
  {
  }

  /** Merging is idempotent: re-applying the same options changes nothing. */
  lemma MergeIdempotent(d: Config, o: Options)
    ensures Merge(Merge(d, o), o) == Merge(d, o)
  {
  }

  /** Supplying only the column count changes only the column count. */
  lemma MergeColumnsOnly(n: int)
    ensures Merge(Defaults, NoOptions.(columns := Some(n))) == Defaults.(columns := n)
  {
  }
}

=== FILE: filter.dfy ===
/** The filter transition triggered by a click on a tag control. */
module Filter {
  import opened Base
  import opened Layout
  import opened TagBar
  import opened GalleryState

  /** Every control with its active marker removed. */
  function ClearActive(controls: seq<Control>): seq<Control> {
    seq(|controls|, j requires 0 <= j < |controls| => controls[j].(active := false))
  }

  /** Every cell with its visibility recomputed from `key`. */
  function ShowOnly(cells: seq<Cell>, key: string): (r: seq<Cell>)
    ensures |r| == |cells|
    ensures forall j :: 0 <= j < |r| ==> r[j].item == cells[j].item && r[j].width == cells[j].width
    ensures forall j :: 0 <= j < |r| ==> (r[j].visible <==> key == AllKey || cells[j].item.tag == Some(key))
  {
    seq(|cells|, j requires 0 <= j < |cells| => cells[j].(visible := Shows(key, cells[j].item)))
  }

  /** Clicking control `i`: clear every active marker, mark the clicked
      control, and show exactly the cells whose item the clicked key selects. */
  function FilterByTag(g: Gallery, i: nat): (g': Gallery)
    requires i < |g.controls|
    ensures g'.config == g.config && g'.bar == g.bar && g'.observed == g.observed
    ensures |g'.controls| == |g.controls|
    ensures forall j :: 0 <= j < |g.controls| ==> g'.controls[j].key == g.controls[j].key
    ensures forall j :: 0 <= j < |g.controls| ==> (g'.controls[j].active <==> j == i)
    ensures |g'.cells| == |g.cells|
    ensures forall j :: 0 <= j < |g.cells| ==> g'.cells[j].item == g.cells[j].item && g'.cells[j].width == g.cells[j].width
    ensures forall j :: 0 <= j < |g.cells| ==> (g'.cells[j].visible <==> Shows(g.controls[i].key, g.cells[j].item))
  {
    var key := g.controls[i].key;
    var cleared := ClearActive(g.controls);
    g.(controls := cleared[i := cleared[i].(active := true)], cells := ShowOnly(g.cells, key))
  }

  /** After a filter step exactly one control is active (the clicked one),
      and the gallery satisfies the filter invariant for its key. */
  lemma FilterConsistent(g: Gallery, i: nat)
    requires i < |g.controls|
    ensures AtMostOneActive(FilterByTag(g, i).controls)
    ensures FilterByTag(g, i).controls[i].active
    ensures ActiveKey(FilterByTag(g, i).controls) == g.controls[i].key
    ensures Consistent(FilterByTag(g, i))
  {
    ActiveKeyOf(FilterByTag(g, i).controls, i);
  }

  /** Visibility depends only on the last key applied: a second filter step
      overrides the first entirely. */
  lemma FilterLastWins(g: Gallery, i: nat, k: nat)
    requires i < |g.controls| && k < |g.controls|
    ensures FilterByTag(FilterByTag(g, i), k) == FilterByTag(g, k)
  {
  }

  /** Filtering twice on the same control is the same as filtering once. */
  lemma FilterIdempotent(g: Gallery, i: nat)
    requires i < |g.controls|
    ensures FilterByTag(FilterByTag(g, i), i) == FilterByTag(g, i)
  {
    FilterLastWins(g, i, i);
  }

  /** An untagged item is visible only under the "all" key. */
  lemma UntaggedOnlyUnderAll(g: Gallery, i: nat, j: nat)
    requires i < |g.controls| && j < |g.cells|
    requires g.cells[j].item.tag.None?
    ensures FilterByTag(g, i).cells[j].visible <==> g.controls[i].key == AllKey
  {
  }

  /** A key other than "all" that no item carries hides every cell. */
  lemma KeyWithoutItemsHidesAll(g: Gallery, i: nat)
    requires i < |g.controls|
    requires g.controls[i].key != AllKey
    requires forall j :: 0 <= j < |g.cells| ==> g.cells[j].item.tag != Some(g.controls[i].key)
    ensures forall j :: 0 <= j < |g.cells| ==> !FilterByTag(g, i).cells[j].visible
  {
  }

  /** The "all" key shows every cell. */
  lemma AllKeyShowsAll(g: Gallery, i: nat)
    requires i < |g.controls|
    requires g.controls[i].key == AllKey
    ensures forall j :: 0 <= j < |g.cells| ==> FilterByTag(g, i).cells[j].visible
  {
  }
}

=== FILE: interaction.dfy ===
/** The single delegated click handler of a gallery. */
module Interaction {
  import opened TagBar
  import opened GalleryState
  import opened Filter

  /** What a click lands on: a filter control, a gallery item (by cell
      index), or anything else inside the gallery. */
  datatype Target = OnControl(index: nat) | OnItem(index: nat) | Elsewhere

  /** What a click asks of the outside world: nothing, or showing the
      lightbox element `lightboxId` with image `source`. */
  datatype Effect = NoEffect | OpenLightbox(lightboxId: string, source: string)

  datatype Reaction = Reaction(gallery: Gallery, effect: Effect)

  /** The target is an element of a gallery with these many cells and
      controls. */
  predicate TargetFits(cellCount: nat, controlCount: nat, t: Target) {
    match t
    case OnControl(i) => i < controlCount
    case OnItem(i) => i < cellCount
    case Elsewhere => true
  }

  /** The target is an element of this gallery. */
  predicate ValidTarget(g: Gallery, t: Target) {
    TargetFits(|g.cells|, |g.controls|, t)
  }

  /** Dispatch in order: a control click filters and stops; an item click
      opens the lightbox on the item's current source when the lightbox is
      enabled; anything else does nothing. */
  function HandleClick(g: Gallery, t: Target): (r: Reaction)
    requires ValidTarget(g, t)
    ensures r.effect.OpenLightbox? <==> t.OnItem? && g.config.lightBox
    ensures r.effect.OpenLightbox? ==> r.effect == OpenLightbox(g.config.lightboxId, g.cells[t.index].item.src)
    ensures t.OnControl? ==> r.gallery == FilterByTag(g, t.index)
    ensures !t.OnControl? ==> r.gallery == g
  {
    match t
    case OnControl(i) => Reaction(FilterByTag(g, i), NoEffect)
    case OnItem(i) =>
      if g.config.lightBox then Reaction(g, OpenLightbox(g.config.lightboxId, g.cells[i].item.src))
      else Reaction(g, NoEffect)
    case Elsewhere => Reaction(g, NoEffect)
  }

  /** Every click keeps the filter invariant, and with it "at most one active
      control". */
  lemma ClickConsistent(g: Gallery, t: Target)
    requires ValidTarget(g, t)
    requires Consistent(g)
    ensures Consistent(HandleClick(g, t).gallery)
    ensures AtMostOneActive(HandleClick(g, t).gallery.controls)
  {
    if t.OnControl? {
      FilterConsistent(g, t.index);
    }
  }
}

=== FILE: layout.dfy ===
/** The wrap pass: one column cell per gallery item, and the tags collected
    along the way. */
module Layout {
  import opened Base
  import opened Config

  /** Width of the grid, in column units. */
  const GridUnits := 12

  /** A column cell owning exactly one item, with its width and visibility. */
  datatype Cell = Cell(item: Item, width: int, visible: bool)

  /** `Math.ceil(12 / columns)` for a positive whole column count. */
  function ColumnWidth(columns: int): (w: int)
    requires columns > 0
    ensures 1 <= w <= GridUnits
    ensures (w - 1) * columns < GridUnits <= w * columns
  {
    var w := (GridUnits + columns - 1) / columns;
    var r := (GridUnits + columns - 1) % columns;
    assert GridUnits + columns - 1 == w * columns + r;
    assert (w - 1) * columns == GridUnits - 1 - r;
    w
  }

  /** The default of three columns gives `col-4`, two give `col-6`, one
      gives `col-12`. */
  lemma ColumnWidthExamples()
    ensures ColumnWidth(3) == 4
    ensures ColumnWidth(2) == 6
    ensures ColumnWidth(1) == 12
  {
  }

  /** Any count of twelve columns or more gives `col-1`. */
  lemma ColumnWidthOneBeyondGrid(c: int)
    requires c >= GridUnits
    ensures ColumnWidth(c) == 1
  {
  }

  /** The cells the wrap pass creates, in item order, all visible. */
  function Wrap(items: seq<Item>, columns: int): (cells: seq<Cell>)
    requires columns > 0
    ensures |cells| == |items|
    ensures forall i :: 0 <= i < |items| ==> cells[i].item == items[i]
    ensures forall i :: 0 <= i < |items| ==> cells[i].width == ColumnWidth(columns)
    ensures forall i :: 0 <= i < |items| ==> cells[i].visible
  {
    seq(|items|, i requires 0 <= i < |items| => Cell(items[i], ColumnWidth(columns), true))
  }

  /** The items a sequence of cells holds, in cell order. */
  function Contents(cells: seq<Cell>): (items: seq<Item>)
    ensures |items| == |cells|
  {
    seq(|cells|, i requires 0 <= i < |cells| => cells[i].item)
  }

  /** Wrapping neither drops, duplicates nor reorders items. */
  lemma ContentsOfWrap(items: seq<Item>, columns: int)
    requires columns > 0
    ensures Contents(Wrap(items, columns)) == items
  {
  }

  /** Index of the first item carrying tag `t`, or `|items|` when none does. */
  function FirstIndex(items: seq<Item>, t: string): (i: nat)
    ensures i <= |items|
    ensures i < |items| ==> items[i].tag == Some(t)
    ensures forall j :: 0 <= j < i ==> items[j].tag != Some(t)
  {
    if |items| == 0 then 0
    else if items[0].tag == Some(t) then 0
    else 1 + FirstIndex(items[1..], t)
  }

  /** `t` is a non-empty tag carried by some item. */
  predicate Tagged(items: seq<Item>, t: string) {
    t != "" && exists i :: 0 <= i < |items| && items[i].tag == Some(t)
  }

  /** Appending an item leaves every earlier first occurrence in place, and
      places the first occurrence of a new tag at the appended position. */
  lemma FirstIndexAppend(p: seq<Item>, x: Item, t: string)
    ensures FirstIndex(p, t) < |p| ==> FirstIndex(p + [x], t) == FirstIndex(p, t)
    ensures FirstIndex(p, t) == |p| && x.tag == Some(t) ==> FirstIndex(p + [x], t) == |p|
  {
    assert forall j :: 0 <= j < |p| ==> (p + [x])[j] == p[j];
    assert (p + [x])[|p|] == x;
  }

  /** Appending an item adds its tag, if truthy, to the tags present. */
  lemma TaggedAppend(p: seq<Item>, x: Item, t: string)
    ensures Tagged(p + [x], t) <==> Tagged(p, t) || (HasTag(x) && x.tag.value == t)
  {
    var items := p + [x];
    if Tagged(items, t) {
      var i :| 0 <= i < |items| && items[i].tag == Some(t);
      if i < |p| {
        assert p[i] == items[i];
      } else {
        assert items[i] == x;
      }
    }
    if Tagged(p, t) {
      var i :| 0 <= i < |p| && p[i].tag == Some(t);
      assert items[i] == p[i];
    }
    if HasTag(x) && x.tag.value == t {
      assert items[|p|] == x;
    }
  }

  /** The tags of the wrap pass in the iteration order of a JavaScript `Set`:
      each distinct non-empty tag once, at its first occurrence. */
  function CollectTags(items: seq<Item>): (tags: seq<string>)
    ensures forall t :: t in tags <==> Tagged(items, t)
    ensures forall k, l :: 0 <= k < l < |tags| ==> FirstIndex(items, tags[k]) < FirstIndex(items, tags[l])
    decreases |items|
  {
    if |items| == 0 then []
    else
      var p := items[..|items| - 1];
      var x := items[|items| - 1];
      var prev := CollectTags(p);
      var tags := if HasTag(x) && x.tag.value !in prev then prev + [x.tag.value] else prev;
      CollectStep(items, p, x, prev, tags);
      tags
  }

  /** One step of the collection: adding item `x` to a `Set` that holds the
      tags of `p` in first-occurrence order yields the tags of `p + [x]` in
      first-occurrence order. */
  lemma CollectStep(items: seq<Item>, p: seq<Item>, x: Item, prev: seq<string>, tags: seq<string>)
    requires items == p + [x]
    requires forall t :: t in prev <==> Tagged(p, t)
    requires forall k, l :: 0 <= k < l < |prev| ==> FirstIndex(p, prev[k]) < FirstIndex(p, prev[l])
    requires tags == if HasTag(x) && x.tag.value !in prev then prev + [x.tag.value] else prev
    ensures forall t :: t in tags <==> Tagged(items, t)
    ensures forall k, l :: 0 <= k < l < |tags| ==> FirstIndex(items, tags[k]) < FirstIndex(items, tags[l])
  {
    forall t | t in prev
      ensures FirstIndex(items, t) == FirstIndex(p, t) < |p|
    {
      FirstIndexAppend(p, x, t);
    }
    forall t
      ensures Tagged(items, t) <==> Tagged(p, t) || (HasTag(x) && x.tag.value == t)
    {
      TaggedAppend(p, x, t);
    }
    if HasTag(x) && x.tag.value !in prev {
      var t := x.tag.value;
      FirstIndexAppend(p, x, t);
      assert FirstIndex(items, t) == |p|;
    }
  }

  /** Collected tags are pairwise distinct: duplicates collapse. */
  lemma CollectTagsDistinct(items: seq<Item>)
    ensures forall k, l :: 0 <= k < l < |CollectTags(items)| ==> CollectTags(items)[k] != CollectTags(items)[l]
  {
  }

  /** Tags are collected only when the tag bar is enabled. */
  function TagsFor(showTags: bool, items: seq<Item>): (tags: seq<string>)
    ensures !showTags ==> tags == []
    ensures showTags ==> forall t :: t in tags <==> Tagged(items, t)
  {
    if showTags then CollectTags(items) else []
  }

  /** The wrap pass as the gallery runs it: a single walk over the items that
      creates each cell and adds each truthy tag to the collection. */
  method WrapImages(items: seq<Item>, config: Config) returns (cells: seq<Cell>, tags: seq<string>)
    requires config.columns > 0
    ensures cells == Wrap(items, config.columns)
    ensures tags == TagsFor(config.showTags, items)
  {
    cells := [];
    tags := [];
    var i := 0;
    while i < |items|
      invariant 0 <= i <= |items|
      invariant cells == Wrap(items[..i], config.columns)
      invariant tags == TagsFor(config.showTags, items[..i])
    {
      var item := items[i];
      assert items[..i + 1][..i] == items[..i];
      assert items[..i + 1][i] == item;
      cells := cells + [Cell(item, ColumnWidth(config.columns), true)];
      if config.showTags && HasTag(item) && item.tag.value !in tags {
        tags := tags + [item.tag.value];
      }
      i := i + 1;
    }
    assert items[..i] == items;
  }
}

=== FILE: lazyload.dfy ===
/** Deferred-source loading: native lazy loading, or an intersection
    observer that assigns each deferred source on first intersection and then
    stops watching the item. */
module LazyLoad {
  import opened Base
  import opened Layout
  import opened GalleryState

  /** One intersection record delivered to the observer callback, naming the
      watched cell by index. */
  datatype Entry = Entry(index: nat, isIntersecting: bool)

  /** `img.src = img.dataset.src` on the item a cell holds. */
  function Assign(c: Cell): (r: Cell)
    requires c.item.deferred.Some?
    ensures r.item.src == c.item.deferred.value
    ensures r.item.tag == c.item.tag && r.item.deferred == c.item.deferred
    ensures r.width == c.width && r.visible == c.visible
  {
    c.(item := c.item.(src := c.item.deferred.value))
  }

  /** The cells matching `.gallery-item[data-src]`: an attribute that is
      present counts, even when empty. */
  function Deferred(cells: seq<Cell>): set<nat> {
    set i: nat | i < |cells| && cells[i].item.deferred.Some?
  }

  /** The native path: every deferred source is assigned at once; items
      without one are untouched. */
  function LoadNative(cells: seq<Cell>): (r: seq<Cell>)
    ensures |r| == |cells|
    ensures forall j :: 0 <= j < |cells| && cells[j].item.deferred.Some? ==> r[j] == Assign(cells[j])
    ensures forall j :: 0 <= j < |cells| && cells[j].item.deferred.None? ==> r[j] == cells[j]
  {
    seq(|cells|, j requires 0 <= j < |cells| =>
      if cells[j].item.deferred.Some? then Assign(cells[j]) else cells[j])
  }

  /** The result of delivering one entry: the new gallery and the index whose
      source was assigned, if any. */
  datatype Delivery = Delivery(gallery: Gallery, loaded: Option<nat>)

  /** The observer callback for one entry. Only watched items receive
      entries; an intersecting one gets its source and is unobserved. */
  function Deliver(g: Gallery, e: Entry): (d: Delivery)
    requires Watching(g)
    ensures Watching(d.gallery)
    ensures d.loaded.Some? <==> e.isIntersecting && e.index in g.observed
    ensures d.loaded.None? ==> d.gallery == g
    ensures d.loaded.Some? ==> d.loaded.value == e.index
    ensures d.loaded.Some? ==> d.gallery.observed == g.observed - {e.index}
    ensures d.loaded.Some? ==> d.gallery.cells == g.cells[e.index := Assign(g.cells[e.index])]
    ensures d.gallery.config == g.config && d.gallery.controls == g.controls && d.gallery.bar == g.bar
  {
    if e.isIntersecting && e.index in g.observed then
      var i := e.index;
      Delivery(g.(cells := g.cells[i := Assign(g.cells[i])], observed := g.observed - {i}), Some(i))
    else
      Delivery(g, None)
  }

  /** A gallery after a run of observer entries, with the indices assigned,
      in order. */
  datatype Loaded = Loaded(gallery: Gallery, log: seq<nat>)

  /** Every index appears at most once. */
  predicate Distinct(log: seq<nat>) {
    forall a, b :: 0 <= a < b < |log| ==> log[a] != log[b]
  }

  /** Delivering a sequence of entries in order. Every watched item that
      receives an intersecting entry is assigned, each deferred source at most
      once, only watched items are touched, and exactly the assigned items
      leave the watched set. */
  function DeliverAll(g: Gallery, entries: seq<Entry>): (r: Loaded)
    requires Watching(g)
    ensures Watching(r.gallery)
    ensures Distinct(r.log)
    ensures forall i :: i in r.log ==> i in g.observed
    ensures forall e :: e in entries && e.isIntersecting && e.index in g.observed ==> e.index in r.log
    ensures r.gallery.observed == g.observed - set i | i in r.log
    ensures r.gallery.config == g.config && r.gallery.controls == g.controls && r.gallery.bar == g.bar
    ensures |r.gallery.cells| == |g.cells|
    ensures forall j :: 0 <= j < |g.cells| && j in r.log ==> r.gallery.cells[j] == Assign(g.cells[j])
    ensures forall j :: 0 <= j < |g.cells| && j !in r.log ==> r.gallery.cells[j] == g.cells[j]
    decreases |entries|
  {
    if |entries| == 0 then Loaded(g, [])
    else
      var d := Deliver(g, entries[0]);
      var rest := DeliverAll(d.gallery, entries[1..]);
      assert forall e :: e in entries ==> e == entries[0] || e in entries[1..];
      match d.loaded
      case None => rest
      case Some(i) => Loaded(rest.gallery, [i] + rest.log)
  }

  /** Once every watched item has received an intersecting entry, the
      fallback path has left the cells exactly as the native path does, and
      nothing is watched any more. */
  lemma FallbackMatchesNative(g: Gallery, entries: seq<Entry>)
    requires Watching(g) && g.observed == Deferred(g.cells)
    requires forall i :: i in g.observed ==> exists e :: e in entries && e.index == i && e.isIntersecting
    ensures DeliverAll(g, entries).gallery.cells == LoadNative(g.cells)
    ensures DeliverAll(g, entries).gallery.observed == {}
  {
    var r := DeliverAll(g, entries);
    forall j | 0 <= j < |g.cells|
      ensures r.gallery.cells[j] == LoadNative(g.cells)[j]
    {
      if g.cells[j].item.deferred.Some? {
        assert j in g.observed;
        var e :| e in entries && e.index == j && e.isIntersecting;
        assert j in r.log;
      }
    }
    forall i | i in g.observed
      ensures i in r.log
    {
      var e :| e in entries && e.index == i && e.isIntersecting;
    }
  }

  /** An entry for an item that was already assigned never assigns it again. */
  lemma AssignedStaysAssigned(g: Gallery, entries: seq<Entry>, e: Entry)
    requires Watching(g)
    requires e.index in DeliverAll(g, entries).log
    ensures Deliver(DeliverAll(g, entries).gallery, e).loaded.None?
  {
  }
}

=== FILE: manager.dfy ===
/** A gallery from construction to the end of its life: the option merge,
    the setup pass in order (wrap, tag bar, listener, loader), and the
    events that follow. */
module Manager {
  import opened Base
  import opened Config
  import opened Layout
  import opened TagBar
  import opened GalleryState
  import opened Filter
  import opened Interaction
  import opened LazyLoad

  /** The column count the merged configuration will carry is usable. */
  predicate ValidOptions(options: Options) {
    Merge(Defaults, options).columns > 0
  }

  /** Construction: merge the options, wrap the items, render the tag bar,
      then start the loader. `nativeLazy` says whether the runtime loads
      images lazily by itself. */
  function Construct(items: seq<Item>, options: Options, nativeLazy: bool): (g: Gallery)
    requires ValidOptions(options)
    ensures g.config == Merge(Defaults, options)
    ensures |g.cells| == |items|
    ensures forall i :: 0 <= i < |items| ==> g.cells[i].width == ColumnWidth(g.config.columns) && g.cells[i].visible
    ensures forall i :: 0 <= i < |items| ==> g.cells[i].item.tag == items[i].tag && g.cells[i].item.deferred == items[i].deferred
    ensures g.bar == Position(g.config)
    ensures g.controls == RenderTags(g.config, TagsFor(g.config.showTags, items))
    ensures nativeLazy ==> g.observed == {}
    ensures nativeLazy ==> forall i :: 0 <= i < |items| && items[i].deferred.Some? ==> g.cells[i].item.src == items[i].deferred.value
    ensures !nativeLazy ==> forall i: nat :: i in g.observed <==> i < |items| && items[i].deferred.Some?
    ensures forall i :: 0 <= i < |items| && (!nativeLazy || items[i].deferred.None?) ==> g.cells[i].item == items[i]
  {
    var config := Merge(Defaults, options);
    var cells := Wrap(items, config.columns);
    var controls := RenderTags(config, TagsFor(config.showTags, items));
    var bar := Position(config);
    if nativeLazy then Gallery(config, LoadNative(cells), controls, bar, {})
    else Gallery(config, cells, controls, bar, Deferred(cells))
  }

  /** A freshly built gallery satisfies both invariants: "all" is the only
      active control and every cell is visible, and only deferred items are
      watched. */
  lemma ConstructInvariants(items: seq<Item>, options: Options, nativeLazy: bool)
    requires ValidOptions(options)
    ensures Consistent(Construct(items, options, nativeLazy))
    ensures Watching(Construct(items, options, nativeLazy))
  {
  }

  /** With tags shown, the control keys are exactly "all" and the distinct
      non-empty tags; the controls are "all" (active) and then one inactive
      control per tag in first-occurrence order. */
  lemma ConstructControls(items: seq<Item>, options: Options, nativeLazy: bool)
    requires ValidOptions(options)
    requires Merge(Defaults, options).showTags
    ensures forall t :: t in Keys(Construct(items, options, nativeLazy).controls) <==> t == AllKey || Tagged(items, t)
    ensures Construct(items, options, nativeLazy).controls[0] == Control(AllKey, true)
    ensures forall k :: 1 <= k < |Construct(items, options, nativeLazy).controls| ==> !Construct(items, options, nativeLazy).controls[k].active
    ensures forall k, l :: 1 <= k < l < |Construct(items, options, nativeLazy).controls| ==>
      FirstIndex(items, Construct(items, options, nativeLazy).controls[k].key) < FirstIndex(items, Construct(items, options, nativeLazy).controls[l].key)
  {
    var g := Construct(items, options, nativeLazy);
    var tags := CollectTags(items);
    RenderedBar(g.config, tags);
    forall k, l | 1 <= k < l < |g.controls|
      ensures FirstIndex(items, g.controls[k].key) < FirstIndex(items, g.controls[l].key)
    {
      assert g.controls[k].key == tags[k - 1] && g.controls[l].key == tags[l - 1];
    }
  }

  /** With tags hidden, no tag is collected and no bar is rendered. */
  lemma ConstructWithoutTags(items: seq<Item>, options: Options, nativeLazy: bool)
    requires ValidOptions(options)
    requires !Merge(Defaults, options).showTags
    ensures Construct(items, options, nativeLazy).controls == []
    ensures Construct(items, options, nativeLazy).bar == NoBar
  {
  }

  /** Something that happens to a gallery after setup. */
  datatype Event = Click(target: Target) | Intersection(entry: Entry)

  /** A click event targets an element of a gallery with these many cells
      and controls. */
  predicate Fits(cellCount: nat, controlCount: nat, e: Event) {
    e.Click? ==> TargetFits(cellCount, controlCount, e.target)
  }

  /** A gallery after a run of events, with every index whose source was
      assigned and every effect the clicks requested, in order. */
  datatype History = History(gallery: Gallery, loads: seq<nat>, effects: seq<Effect>)

  /** Apply a run of events in order. The cell and control counts never
      change, only watched items are loaded, and no item is loaded twice:
      a loaded item has exactly its deferred source assigned, and every other
      item is as it was. */
  function Run(g: Gallery, events: seq<Event>): (h: History)
    requires Watching(g)
    requires forall k :: 0 <= k < |events| ==> Fits(|g.cells|, |g.controls|, events[k])
    ensures Watching(h.gallery)
    ensures |h.gallery.cells| == |g.cells| && |h.gallery.controls| == |g.controls|
    ensures h.gallery.config == g.config
    ensures Distinct(h.loads)
    ensures forall i :: i in h.loads ==> i in g.observed && i !in h.gallery.observed
    ensures h.gallery.observed <= g.observed
    ensures forall k :: 0 <= k < |events| && events[k].Intersection? ==>
      (events[k].entry.isIntersecting && events[k].entry.index in g.observed ==> events[k].entry.index in h.loads)
    ensures forall j :: 0 <= j < |g.controls| ==> h.gallery.controls[j].key == g.controls[j].key
    ensures forall j :: 0 <= j < |g.cells| ==>
      h.gallery.cells[j].item == (if j in h.loads then Assign(g.cells[j]).item else g.cells[j].item)
    decreases |events|
  {
    if |events| == 0 then History(g, [], [])
    else
      assert Fits(|g.cells|, |g.controls|, events[0]);
      match events[0]
      case Click(t) =>
        var r := HandleClick(g, t);
        var rest := Run(r.gallery, events[1..]);
        History(rest.gallery, rest.loads, [r.effect] + rest.effects)
      case Intersection(e) =>
        var d := Deliver(g, e);
        var rest := Run(d.gallery, events[1..]);
        match d.loaded
        case None => rest
        case Some(i) => History(rest.gallery, [i] + rest.loads, rest.effects)
  }

  /** Every run of events keeps the filter invariant: at most one control is
      active at any time, and visibility always follows the active key. */
  lemma {:induction false} RunConsistent(g: Gallery, events: seq<Event>)
    requires Watching(g) && Consistent(g)
    requires forall k :: 0 <= k < |events| ==> Fits(|g.cells|, |g.controls|, events[k])
    ensures Consistent(Run(g, events).gallery)
    ensures AtMostOneActive(Run(g, events).gallery.controls)
    decreases |events|
  {
    if |events| > 0 {
      match events[0]
      case Click(t) =>
        ClickConsistent(g, t);
        RunConsistent(HandleClick(g, t).gallery, events[1..]);
      case Intersection(e) =>
        var d := Deliver(g, e);
        assert Consistent(d.gallery) by {
          if d.loaded.Some? {
            assert forall j :: 0 <= j < |g.cells| ==> d.gallery.cells[j].item.tag == g.cells[j].item.tag;
          }
        }
        RunConsistent(d.gallery, events[1..]);
    }
  }

  /** The last control clicked decides the filter state: if a run ends with a
      click on control `i`, that control is the only active one and every cell
      is visible exactly when the control's key shows its item. */
  lemma {:induction false} RunLastClick(g: Gallery, events: seq<Event>, i: nat)
    requires Watching(g)
    requires forall k :: 0 <= k < |events| ==> Fits(|g.cells|, |g.controls|, events[k])
    requires |events| > 0 && events[|events| - 1] == Click(OnControl(i))
    ensures i < |g.controls|
    ensures forall j :: 0 <= j < |g.controls| ==> (Run(g, events).gallery.controls[j].active <==> j == i)
    ensures forall j :: 0 <= j < |g.cells| ==>
      (Run(g, events).gallery.cells[j].visible <==> Shows(g.controls[i].key, Run(g, events).gallery.cells[j].item))
    decreases |events|
  {
    assert Fits(|g.cells|, |g.controls|, events[|events| - 1]);
    assert Fits(|g.cells|, |g.controls|, events[0]);
    var next := match events[0]
      case Click(t) => HandleClick(g, t).gallery
      case Intersection(e) => Deliver(g, e).gallery;
    if |events| == 1 {
      assert Run(g, events).gallery == FilterByTag(g, i);
    } else {
      var tail := events[1..];
      assert tail[|tail| - 1] == events[|events| - 1];
      assert forall k :: 0 <= k < |tail| ==> tail[k] == events[k + 1];
      assert Run(g, events).gallery == Run(next, tail).gallery;
      RunLastClick(next, tail, i);
    }
  }

  /** Over the whole life of a gallery, from construction through any run of
      events, the invariants hold and each deferred source is assigned at
      most once. */
  lemma LifetimeInvariants(items: seq<Item>, options: Options, nativeLazy: bool, events: seq<Event>)
    requires ValidOptions(options)
    requires forall k :: 0 <= k < |events| ==> Fits(|items|, |Construct(items, options, nativeLazy).controls|, events[k])
    ensures var h := Run(Construct(items, options, nativeLazy), events);
      && AtMostOneActive(h.gallery.controls)
      && Consistent(h.gallery)
      && Distinct(h.loads)
      && (forall i :: i in h.loads ==> !nativeLazy && i < |items| && items[i].deferred.Some?)
    ensures var h := Run(Construct(items, options, nativeLazy), events);
      forall j :: 0 <= j < |items| ==>
        h.gallery.cells[j].item ==
          if (nativeLazy || j in h.loads) && items[j].deferred.Some? then items[j].(src := items[j].deferred.value)
          else items[j]
  {
    ConstructInvariants(items, options, nativeLazy);
    RunConsistent(Construct(items, options, nativeLazy), events);
  }
}

=== FILE: scenario.dfy ===
/** Worked scenarios of the whole gallery. */
module Scenario {
  import opened Base
  import opened Config
  import opened Layout
  import opened TagBar
  import opened Filter
  import opened Interaction
  import opened Manager

  /** Item A tagged "landscape", item B tagged "portrait", item C untagged. */
  function Landscapes(a: string, b: string, c: string): seq<Item> {
    [Item(Some("landscape"), None, a), Item(Some("portrait"), None, b), Item(None, None, c)]
  }

  /** With two columns the three items get `col-6` cells, and the bar at the
      bottom offers all (active), landscape and portrait. */
  lemma LandscapesSetup(a: string, b: string, c: string)
    ensures forall i :: 0 <= i < 3 ==> Construct(Landscapes(a, b, c), NoOptions.(columns := Some(2)), true).cells[i].width == 6
    ensures Construct(Landscapes(a, b, c), NoOptions.(columns := Some(2)), true).controls
      == [Control(AllKey, true), Control("landscape", false), Control("portrait", false)]
    ensures Construct(Landscapes(a, b, c), NoOptions.(columns := Some(2)), true).bar == Bottom
  {
    var items := Landscapes(a, b, c);
    assert items[..2] == [items[0], items[1]] && items[..2][..1] == [items[0]] && items[..3 - 1] == items[..2];
    assert CollectTags(items[..2][..1]) == ["landscape"];
    assert CollectTags(items[..2]) == ["landscape", "portrait"];
    assert CollectTags(items) == ["landscape", "portrait"];
  }

  /** Clicking "landscape" shows A only; clicking "all" afterwards shows A, B
      and C. */
  lemma LandscapesClicks(a: string, b: string, c: string)
    ensures
      var g := Construct(Landscapes(a, b, c), NoOptions.(columns := Some(2)), true);
      |g.controls| == 3 && |g.cells| == 3
      && var landscape := HandleClick(g, OnControl(1)).gallery;
      && [landscape.cells[0].visible, landscape.cells[1].visible, landscape.cells[2].visible] == [true, false, false]
      && var all := HandleClick(landscape, OnControl(0)).gallery;
      && [all.cells[0].visible, all.cells[1].visible, all.cells[2].visible] == [true, true, true]
  {
    LandscapesSetup(a, b, c);
  }

  /** An item tagged literally "all" yields a second control whose key is
      "all", and clicking it shows every item just as the first does. */
  lemma TagNamedAll(x: Item, y: Item)
    requires x.tag == Some(AllKey)
    ensures
      var g := Construct([x, y], NoOptions, true);
      && |g.controls| >= 2
      && g.controls[0].key == AllKey && g.controls[1].key == AllKey
      && FilterByTag(g, 1).cells == FilterByTag(g, 0).cells
  {
    assert [x, y][..1] == [x];
    assert CollectTags([x]) == [AllKey];
  }
}

=== FILE: state.dfy ===
/** The state of one gallery after setup, and the invariants it keeps. */
module GalleryState {
  import opened Base
  import opened Config
  import opened Layout
  import opened TagBar

  /** One gallery: its configuration, its column cells in document order, its
      filter controls, where the bar sits, and the items the intersection
      observer still watches (by cell index). */
  datatype Gallery = Gallery(
    config: Config,
    cells: seq<Cell>,
    controls: seq<Control>,
    bar: Placement,
    observed: set<nat>)

  /** Under filter key `key`, an item is shown iff the key is "all" or the
      item's tag equals the key. */
  predicate Shows(key: string, it: Item)
    ensures key == AllKey ==> Shows(key, it)
    ensures key != AllKey ==> (Shows(key, it) <==> it.tag.Some? && it.tag.value == key)
    ensures it.tag.None? ==> (Shows(key, it) <==> key == AllKey)
  {
    key == AllKey || it.tag == Some(key)
  }

  /** The two tag tests differ on the empty tag: an item tagged "" is never
      collected, so no control carries the key "", yet the strict equality of
      the display test would show it under that key. */
  lemma EmptyTagAsymmetry(items: seq<Item>, j: nat)
    requires j < |items| && items[j].tag == Some("")
    ensures "" !in CollectTags(items)
    ensures !HasTag(items[j])
    ensures Shows("", items[j])
  {
  }

  /** The key of the first active control, or "all" when none is active. */
  function ActiveKey(controls: seq<Control>): string {
    if |controls| == 0 then AllKey
    else if controls[0].active then controls[0].key
    else ActiveKey(controls[1..])
  }

  /** With at most one active control, the active key is that control's key. */
  lemma {:induction false} ActiveKeyOf(controls: seq<Control>, i: nat)
    requires i < |controls| && controls[i].active
    requires AtMostOneActive(controls)
    ensures ActiveKey(controls) == controls[i].key
    decreases i
  {
    if i > 0 {
      assert !controls[0].active;
      var rest := controls[1..];
      assert rest[i - 1] == controls[i];
      assert AtMostOneActive(rest) by {
        forall j, k | 0 <= j < |rest| && 0 <= k < |rest| && rest[j].active && rest[k].active
          ensures j == k
        {
          assert controls[j + 1] == rest[j] && controls[k + 1] == rest[k];
        }
      }
      ActiveKeyOf(rest, i - 1);
    }
  }

  /** The filter invariant: at most one control is active, and every cell is
      visible exactly when the active key shows its item. */
  predicate Consistent(g: Gallery) {
    && AtMostOneActive(g.controls)
    && forall j :: 0 <= j < |g.cells| ==> (g.cells[j].visible <==> Shows(ActiveKey(g.controls), g.cells[j].item))
  }

  /** The observer invariant: every watched index is a cell whose item has a
      deferred source. */
  predicate Watching(g: Gallery) {
    forall i :: i in g.observed ==> i < |g.cells| && g.cells[i].item.deferred.Some?
  }
}

=== FILE: tagbar.dfy ===
/** The tag bar: a list of filter controls, the permanent "all" control
    first, then one control per collected tag. */
module TagBar {
  import opened Config

  /** The filter key of the permanent first control. */
  const AllKey := "all"

  /** A filter control: its `data-images-toggle` key and whether it carries
      the active marker. */
  datatype Control = Control(key: string, active: bool)

  /** Where the tag bar sits among the gallery's children. */
  datatype Placement = NoBar | Top | Bottom

  /** The keys of a control list. */
  function Keys(controls: seq<Control>): set<string> {
    set c | c in controls :: c.key
  }

  /** No two controls carry the active marker. */
  predicate AtMostOneActive(controls: seq<Control>) {
    forall j, k :: 0 <= j < |controls| && 0 <= k < |controls| && controls[j].active && controls[k].active ==> j == k
  }

  /** The control list the renderer builds from the collected tags, or none
      when tags are not shown. */
  function RenderTags(config: Config, tags: seq<string>): (bar: seq<Control>)
    ensures !config.showTags ==> bar == []
    ensures config.showTags ==> |bar| == |tags| + 1 && bar[0] == Control(AllKey, true)
    ensures config.showTags ==> forall k :: 0 <= k < |tags| ==> bar[k + 1] == Control(tags[k], false)
  {
    if !config.showTags then []
    else [Control(AllKey, true)] + seq(|tags|, k requires 0 <= k < |tags| => Control(tags[k], false))
  }

  /** A rendered bar offers exactly "all" and the collected tags, and only the
      "all" control starts out active. */
  lemma RenderedBar(config: Config, tags: seq<string>)
    requires config.showTags
    ensures Keys(RenderTags(config, tags)) == {AllKey} + set t | t in tags
    ensures AtMostOneActive(RenderTags(config, tags))
    ensures forall j :: 0 <= j < |RenderTags(config, tags)| ==> (RenderTags(config, tags)[j].active <==> j == 0)
  {
  }

  /** The bar is appended last when the position is "bottom", inserted first
      for any other position, and absent when tags are not shown. */
  function Position(config: Config): (p: Placement)
    ensures p == NoBar <==> !config.showTags
    ensures p == Bottom <==> config.showTags && config.tagsPosition == "bottom"
    ensures p == Top <==> config.showTags && config.tagsPosition != "bottom"
  {
    if !config.showTags then NoBar
    else if config.tagsPosition == "bottom" then Bottom
    else Top
  }
}
